=== FILE: README.md ===
# Stock ledger of the estoque inventory application

A Dafny model of the stock-movement ledger of a Django inventory
application (products, categories, suppliers, stock movements, physical
counts), with the validators and derived figures around it.

- **Amounts** (`DecimalField(decimal_places=2)`) are whole numbers of
  hundredths, so `12.34` is `1234`. A stock valuation (quantity times cost)
  is a whole number of ten-thousandths, because Python's `Decimal`
  multiplication is exact.
- **State** is a `Store`: the product catalogue and the movement log, oldest
  first. A product is found as `get_object_or_404(Produto, pk=…, ativo=True)`
  finds it: a missing product and an inactive one both answer `NotFound`.
- **Ledger requests** (`entrada_estoque`, `saida_estoque`, `ajuste_estoque`,
  and the soft delete `produto_delete`) are pure functions returning
  `Result<Store, LedgerError>`. An `Err` means the view wrote nothing. An
  accepted entry, exit or adjustment appends one `Movement` and saves the
  product; an accepted soft delete saves the product inactive and leaves the
  log as it is.
  - `Step` applies one request, keeping the old state on refusal.
  - `Run` applies a sequence of requests.
- **The user, the clock and the random QR suffix** of each request come in a
  `Context`.
- **Invariant** (`LedgerInvariants.Consistent`):
  - primary keys are unique;
  - balances are non-negative;
  - each logged movement obeys its kind's arithmetic;
  - each movement of a product opens at the balance the previous one closed
    at;
  - a product's balance is the closing balance of its latest movement.

  Every sequence of requests preserves it. A consequence is that a balance
  is its history replayed.
- **Form validators** of estoque/forms.py receive the value their field has
  already cleaned. `instance` is the key of the record being edited, or
  `None` on creation.

The ledger transitions follow the code in these respects:
- an adjustment with no reason records the default reason; it is not
  refused;
- "not found" covers inactive products too.

In two places the code does not do what it evidently means to, and there the
ledger transitions (and the invariants about them) model the intended
behaviour, while the behaviour as written is modelled separately (see
Findings):
- as written, the adjustment view fails for every valid target
  (`Ledger.AdjustmentAsWritten`); `Ledger.RecordAdjustment` makes the
  adjustment;
- as written, the movement field's 0.01 minimum refuses 0.01 itself
  (`Forms.MinValidatorAsWritten`); `Forms.CleanMovementForm` accepts every
  quantity of at least 0.01.

## Model

| member | source | states |
|---|---|---|
| Models.KindCode | estoque/models.py:131-135 | each movement kind is stored as a non-empty code of at most 10 characters (the `tipo` column) |
| Models.KindCodeInjective | estoque/models.py:131-135 | distinct kinds have distinct stored codes |
| Models.StockValue | estoque/models.py:121-124 | the valuation is non-negative for non-negative amounts, zero when the balance or the cost is zero, and zero only then when the cost is positive |
| Models.StockValueShift | estoque/models.py:121-124 | raising the balance by q raises the valuation by q times the cost |
| Models.QrPrefix | estoque/models.py:113 | the generated QR text is "PROD-", then exactly the code, then "-" |
| Models.ProductBoundsHold | estoque/models.py:46-72 | the `MinValueValidator(0)` bounds of a product's balance, minimum, cost and sale price |
| Models.MovementBoundsHold | estoque/models.py:139-143 | the intended 0.01 minimum of a movement quantity |
| Models.LowStock | estoque/models.py:116-119 | a product is low on stock when its balance is at or under its minimum |
| Models.SaveProduct | estoque/models.py:110-114 | a product that has a QR code is saved unchanged; one without gets "PROD-<code>-" followed by the random suffix; no other field changes |
| Models.SaveProductIdempotent | estoque/models.py:110-114 | saving twice equals saving once, whatever suffix the second save would draw |
| Models.NewInventoryItem | estoque/models.py:216-227 | a new count line has no count, no count time, and a difference of 0 |
| Models.SaveInventoryItem | estoque/models.py:235-240 | with a count, system plus difference equals the count, and the count time is stamped only if it was unset; without a count nothing changes |
| Models.SaveInventoryItemIdempotent | estoque/models.py:235-240 | re-saving a count line changes nothing and never overwrites the first count time |
| Models.CountDifferenceSign | estoque/models.py:236-237 | the difference is zero exactly when the count matches the system quantity, and negative exactly when stock is missing |
| Text.Digits | estoque/forms.py:203 | the digit projection keeps only digits, is no longer than its input, leaves an all-digit string as it is and empties a string with no digit (with DigitsAppend this fixes it) |
| Text.DigitsAppend | estoque/forms.py:203 | digit projection distributes over concatenation |
| Text.DigitsIdempotent | estoque/forms.py:203 | projecting twice equals projecting once |
| Text.StripKeepsInner | estoque/models.py:148 | stripping removes whitespace only: every other character of the input is still in the result |
| Text.Strip | estoque/models.py:148 | stripping removes exactly the leading and trailing whitespace: the result is the piece of the input between a run of whitespace at the start and one at the end, has no whitespace at either end, and is empty exactly when the input is all whitespace |
| Forms.TakenByOther | estoque/forms.py:58-62 | the uniqueness query is true iff some record other than the one being edited matches |
| Forms.CleanQuantity | estoque/forms.py:121-125 | a quantity is accepted iff it is positive, and then returned unchanged |
| Forms.CleanQuantityMatchesFieldMinimum | estoque/models.py:139-143 | on two-place decimals, "greater than zero" accepts exactly the quantities the 0.01 minimum accepts |
| Forms.MinValidatorAsWritten | estoque/models.py:142 | as written, a quantity passes the minimum when it is at least the exact binary value of the float 0.01 |
| Forms.MinValidatorAsWrittenThreshold | estoque/models.py:139-143 | as written, the 0.01 minimum (a float limit compared exactly with the Decimal quantity) accepts exactly the quantities of 0.02 or more, and refuses 0.01 |
| Forms.CleanMovementForm | estoque/forms.py:88-125 | the movement form is valid iff the quantity is present and positive, the stripped reason is non-empty and at most 200 characters, the document fits 100, and none of reason, note and document holds a NUL character (the null-character validator of every form `CharField`); the cleaned data carries those values |
| Forms.NulReasonRefused | estoque/models.py:148 | a reason with a NUL anywhere in it is refused with the null-character error, since stripping never removes a NUL |
| Forms.BlankReasonRefused | estoque/models.py:148 | a reason made only of blanks is refused as missing |
| Forms.CleanProduct | estoque/forms.py:67-85 | the sale-below-cost error is raised iff both prices are present and non-zero and sale < cost; the quantity errors iff the quantity is negative |
| Forms.PriceCheckWhenBothSet | estoque/forms.py:74-76 | with both prices positive, the price error is raised exactly when sale < cost |
| Forms.ZeroSalePriceNotCompared | estoque/forms.py:75 | a zero sale price is never compared with the cost, so it passes even below a positive cost |
| Forms.QuantityChecksFollowFieldBounds | estoque/models.py:46-72 | values within the fields' minimum of 0 never raise the quantity errors of `clean` |
| Forms.CleanCode | estoque/forms.py:54-65 | a code is refused iff another product (active or not) with a different key has it; an accepted code is returned unchanged |
| Forms.CreateKeepsCodesUnique | estoque/forms.py:54-65 | adding a product whose code passed keeps product codes unique |
| Forms.EditKeepsOwnCode | estoque/forms.py:59-60 | editing a product without changing its code passes |
| Forms.EditKeepsCodesUnique | estoque/forms.py:54-65 | saving an edit whose code passed keeps product codes unique |
| Forms.CleanCategoryName | estoque/forms.py:148-159 | a category name is refused iff another category has the same name up to letter case |
| Forms.CreateKeepsNamesUnique | estoque/forms.py:148-159 | adding a category whose name passed keeps names unique up to letter case |
| Forms.CaseVariantRefused | estoque/forms.py:152 | a name differing from an existing one only in letter case is refused |
| Forms.CleanCnpj | estoque/forms.py:199-217 | an empty CNPJ passes; otherwise a digit count other than 14 is a length error, and another supplier with the same value is a duplicate; an accepted value is returned exactly as typed |
| Forms.CnpjDuplicateComparesTypedText | estoque/forms.py:209-215 | the same 14 digits typed with a separator are not recognised as a duplicate of the bare digits on file |
| Forms.CleanEmail | estoque/forms.py:219-230 | an empty e-mail passes; otherwise it is refused iff another supplier has the same address |
| Forms.CreateKeepsSupplierFieldsUnique | estoque/forms.py:199-230 | adding a supplier whose CNPJ and e-mail passed keeps each unique among suppliers that have one |
| Ledger.Available | estoque/views.py:219 | `get_object_or_404(Produto, pk=…, ativo=True)` finds an object when some active product has the key |
| Ledger.Find | estoque/views.py:219 | a product is found iff an active product has the key, and the first such position is returned |
| Ledger.Commit | estoque/views.py:234-235 | a commit appends the movement and gives the product the movement's closing balance; a product without a QR code gets `Produto.save`'s "PROD-<code>-" followed by the request's random suffix, and nothing else changes |
| Ledger.RecordEntry | estoque/views.py:217-238 | an entry is refused for a missing/inactive product or an invalid form; otherwise it appends an ENTRADA movement from the old balance to old + quantity, with the form's reason, note and document, and sets that balance |
| Ledger.RecordExit | estoque/views.py:252-281 | an exit is refused for a missing/inactive product or an invalid form, and refused as insufficient iff the quantity exceeds the balance; it succeeds exactly when the product is available, the form is valid and the quantity is at most the balance, and then it appends a SAIDA movement to old − quantity ≥ 0 and sets that balance |
| Ledger.AdjustmentReason | estoque/views.py:317 | a missing or empty reason becomes "Ajuste de estoque"; any other reason is kept |
| Ledger.RecordAdjustment | estoque/views.py:295-329 | corrected adjustment: refused for a missing/inactive product, an unparsable target or a negative one; otherwise the balance becomes the target exactly and an AJUSTE movement logs abs(target − before), zero included |
| Ledger.PySubtract | estoque/views.py:314 | subtracting a Decimal from a float (or the reverse) fails with TypeError; same-kind subtraction is exact |
| Ledger.AdjustmentAsWritten | estoque/views.py:303-327 | as written, a missing/inactive product, an unparsable target and a negative target give their errors |
| Ledger.AdjustmentAsWrittenNeverRecords | estoque/views.py:314-327 | as written, every adjustment request fails, and each one the corrected view would record gets "invalid quantity" |
| Ledger.Deactivate | estoque/views.py:155-163 | soft delete: refused iff the product is not found; otherwise the product becomes inactive and is saved, and the movement log and other products are untouched |
| Ledger.Apply | estoque/urls.py:22-24 | a request is routed to its view: it is accepted exactly when the product is available and an entry's form is valid, an exit's form is valid and its quantity at most the balance, or an adjustment's target parses and is not negative; one for an unavailable product is a 404, and an accepted one records one movement of the request's kind against the product it names |
| Ledger.Run | estoque/urls.py:22-24 | serving a sequence of requests never adds, removes or re-keys a product |
| Ledger.Step | estoque/views.py:217-329 | a request either leaves the store unchanged or records exactly one movement against one product |
| LedgerInvariants.History | estoque/models.py:137 | a product's history holds only that product's movements |
| LedgerInvariants.HistoryAppend | estoque/models.py:137 | appending a movement extends exactly its own product's history |
| LedgerInvariants.EmptyLogConsistent | estoque/models.py:46-51 | a catalogue with unique keys, non-negative balances and no movements is consistent |
| LedgerInvariants.RecordedKeepsConsistent | estoque/views.py:228-235 | recording a well-formed movement that starts at the product's balance keeps the store consistent |
| LedgerInvariants.StepKeepsConsistent | estoque/views.py:217-329 | every entry, exit or adjustment request, accepted or refused, keeps the store consistent |
| LedgerInvariants.RunKeepsConsistent | estoque/views.py:217-329 | any sequence of requests keeps the store consistent, so no balance ever goes negative |
| LedgerInvariants.RunExtendsLog | estoque/views.py:217-329 | serving requests never rewrites or drops a movement and adds at most one per request |
| LedgerInvariants.DeactivateKeepsConsistent | estoque/views.py:155-163 | soft deletion keeps the store consistent and the history intact |
| LedgerInvariants.ReplayChained | estoque/views.py:226-232 | a chained history of well-formed movements ends where its signed changes, replayed from its opening balance, lead |
| LedgerInvariants.BalanceIsReplayedHistory | estoque/views.py:226-235 | in a consistent store a product's balance equals its history replayed |
| LedgerInvariants.HistoryWellFormed | estoque/views.py:226-232 | a product's history contains only well-formed movements when the log does |
| LedgerLaws.FindAfterRecorded | estoque/views.py:219 | after a commit the same product is still found at the same position |
| LedgerLaws.ExitUndoesEntry | estoque/views.py:228-275 | an exit of the quantity just entered succeeds, restores the balance, and leaves two movements with mirrored before/after |
| LedgerLaws.AdjustToCurrentBalance | estoque/views.py:311-321 | adjusting to the current balance keeps it and still logs an adjustment of quantity 0, below the field's 0.01 minimum |
| LedgerLaws.AdjustmentIdempotent | estoque/views.py:311-321 | adjusting twice to the same target leaves the target, the second logging a zero change |
| LedgerLaws.RefusedExitChangesNothing | estoque/views.py:262-266 | an exit larger than the balance is refused and leaves the store, balance and log, unchanged |
| LedgerLaws.LowStockMonotone | estoque/models.py:116-119 | an exit never clears low stock and an entry never causes it |
| LedgerLaws.ExitsThenAdjustScenario | estoque/views.py:262-275 | from 10.00 with minimum 5.00: exits of 3.00, 5.00 give 7.00 (not low), 2.00 (low); an exit of 10.00 is refused and leaves the store unchanged at 2.00; adjusting to 0.00 logs 2.00 with the default reason |
| LedgerLaws.ScenarioAdjustmentAsWritten | estoque/views.py:311-327 | the scenario's adjustment to 0.00 from 2.00 fails as written and succeeds as corrected |
| Dashboard.ActiveCount | estoque/views.py:16 | the product count is at most the catalogue size and zero iff no product is active |
| Dashboard.LowStockCount | estoque/views.py:17-20 | the low-stock count is at most the active count and zero iff no active product is at or under its minimum |
| Dashboard.LowStockProducts | estoque/views.py:27-30 | the alert candidates are exactly the active low-stock products, as many as the low-stock count |
| Dashboard.LowStockAlerts | estoque/views.py:27-30 | the alerts are the first min(count, 5) of the active low-stock products, in catalogue order, so all of them when there are at most five |
| Dashboard.TotalValue | estoque/views.py:22-24 | the stock value is non-negative for non-negative amounts and 0 when no product is active |
| Dashboard.UpdateOne | estoque/views.py:16-24 | replacing one product changes each dashboard figure by that product's own share only |
| Dashboard.ContributionShift | estoque/models.py:121-124 | moving an active product's balance by q moves its share of the value by q times cost |
| Dashboard.RecordedShiftsValue | estoque/views.py:22-24 | a recorded movement moves the total value by the balance change times the cost and keeps the product count |
| Dashboard.EntryRaisesTotalValue | estoque/views.py:231 | an entry of q raises the dashboard value by q times the product's cost |
| Dashboard.LoweredByExit | estoque/views.py:274 | a recorded movement that takes q from an active product lowers the stock value by q times its cost |
| Dashboard.ExitLowersTotalValue | estoque/views.py:274 | an exit of q lowers the dashboard value by q times the product's cost |
| Dashboard.DeactivateLeavesDashboard | estoque/views.py:160-161 | soft deletion removes the product from the count, from the low-stock count if it was low, and its value from the total |
| Dashboard.DeactivatedNotFound | estoque/views.py:219-254 | a deactivated product is no longer found by entry or exit (the lookups at lines 219 and 254) |
| Dashboard.Matching | estoque/views.py:379-383 | the search matches are exactly the active products whose name, code or QR code contains the text, ignoring case; a one-product catalogue matches itself or nothing |
| Dashboard.MatchingAppend | estoque/views.py:379-383 | the matches of a concatenated catalogue are the matches of each part in order, so with the one-product case each product appears once, in catalogue order |
| Dashboard.SearchProducts | estoque/views.py:373-388 | a search under 2 characters returns nothing; otherwise the first min(matches, 10) matches in order, so every match when there are at most 10 |

## Findings

| source | as written | input that shows it | evidently intended | confidence | as-written member | corrected member |
|---|---|---|---|---|---|---|
| estoque/views.py:314 | The movement quantity subtracts the stored `Decimal` balance from the `float` parsed from the form. Python refuses mixed float/Decimal arithmetic with `TypeError`, which the view's handler (line 326) turns into "Quantidade inválida!". | Any active product (balance 2.00) with target `0`: no AJUSTE is logged and the balance stays 2.00. | The balance becomes the target, and an AJUSTE logs abs(target − before). | high; not executed | Ledger.AdjustmentAsWritten (shown by Ledger.AdjustmentAsWrittenNeverRecords and LedgerLaws.ScenarioAdjustmentAsWritten) | Ledger.RecordAdjustment (used by Ledger.Apply, Step and Run) |
| estoque/models.py:142 | The movement quantity's minimum is the float `0.01`. Its exact binary value is 5764607523034235 / 2^59, a little above one hundredth. Python compares a `Decimal` with a `float` exactly, and the model form runs this validator on the submitted quantity. | A movement of `0.01`: `Decimal('0.01') < 0.01` holds, so the form is refused with the minimum-value error. | Any quantity of at least 0.01 is accepted, matching the widget's `min` of 0.01 and `clean_quantidade`. | medium; not executed | Forms.MinValidatorAsWritten (shown by Forms.MinValidatorAsWrittenThreshold) | Forms.CleanMovementForm with Forms.CleanQuantityMatchesFieldMinimum (minimum Models.MinMovementQuantity = 0.01, used by the ledger requests) |

## Left out

- HTTP handling is not modelled: requests and responses, rendering, flash
  messages, redirects, pagination and URL routing. These are presentation
  only. A refused request is an `Err`. A GET changes nothing.
- The ORM's query mechanics are not modelled. Tables are sequences and
  filters are predicates. Ordering by name (`Produto.Meta.ordering`) and by
  `-data_movimentacao` is not modelled: the catalogue keeps its own order and
  the log keeps append order. The dashboard's "latest ten movements" is left
  out for the same reason.
- Concurrency and atomicity are not modelled. Each request is one sequential
  step. The views' unguarded read-modify-write, and their saving the movement
  before the product, are not modelled, and nothing here claims race safety.
- `float()` parsing in the adjustment is not modelled. A target is either
  exact hundredths or "did not parse" (`None`). Float rounding is left out,
  and so are `nan` and `inf`, which fail at the same subtraction anyway.
- The random `uuid4` suffix of the QR code is a parameter in `Context`. The
  clock (`timezone.now`) and the signed-in user are parameters too.
- The dashboard's sum is computed by the database. The model sums exactly;
  a database that does decimal arithmetic in floating point (SQLite) may
  round it.
- The `max_digits=10` bound is not modelled: balances are unbounded integers,
  so an entry can grow a balance beyond what the column holds.
- Some Django field validation is not modelled: `max_length` on product
  code and names and on the supplier's CNPJ (18 characters, checked before
  `clean_cnpj` runs, so `Forms.CleanCnpj` sees longer values the method
  never receives), the `EmailField` address format, and the model-level
  `unique=True` checks that repeat `clean_codigo` and `clean_nome`.
- Only ASCII is modelled for `str.isdigit`, whitespace stripping and
  case-insensitive matching. All ASCII whitespace that `str.strip()` removes
  is modelled, the separators U+001C to U+001F included. The database and Python also fold or recognise
  other Unicode characters.
- `produto_update` and `ProdutoForm` can set `quantidade_atual` directly,
  bypassing the ledger. That path is not modelled. The consistency
  invariant covers the ledger requests and soft deletion only.
- `InventarioFisico` has no operation in this code beyond its fields, so only
  `ItemInventario.save` is modelled.
- `buscar_qr`, `produto_list`, `estoque_baixo`, `movimentacao_list`,
  `BuscaQRForm` and `FiltroMovimentacaoForm` are listing and filtering
  views outside the ledger.
- Management commands, seed-data and user-creation scripts, icon generation,
  the service worker and the admin configuration are operational tooling,
  not the ledger.
- Forms.CleanMovementForm: reports only the first failing field in form
  order, where Django collects an error for every field. Apart from the
  quantity limits in the next two lines, which forms are valid is the same.
- Forms.CleanMovementForm: the quantity field's `max_digits=10` is not
  checked, so a quantity of 100000000.00 or more is accepted where Django
  refuses it; balances are unbounded for the same reason.
- Forms.CleanMovementForm: a quantity that is not a two-place decimal is
  modelled as a missing one, so it is reported as `QuantityRequired` where
  Django reports a number-format or decimal-places error. Such a form is
  refused either way.

=== FILE: dashboard.dfy ===
/** The read-only views over the catalogue: the dashboard figures of
    `dashboard` and the live search of `buscar_produtos_htmx`
    (estoque/views.py). Both look at active products only. */
module Dashboard {
  import opened Results
  import opened Text
  import opened Models
  import opened Forms
  import opened Ledger

  /** `total_produtos`: active products. */
  function ActiveCount(ps: seq<Product>): (r: nat)
    ensures r <= |ps|
    ensures r == 0 <==> forall i :: 0 <= i < |ps| ==> !ps[i].active
  {
    if |ps| == 0 then 0 else (if ps[0].active then 1 else 0) + ActiveCount(ps[1..])
  }

  /** `produtos_baixo_estoque`: active products at or under their minimum. */
  function LowStockCount(ps: seq<Product>): (r: nat)
    ensures r <= ActiveCount(ps)
    ensures r == 0 <==> forall i :: 0 <= i < |ps| ==> !(ps[i].active && LowStock(ps[i]))
  {
    if |ps| == 0 then 0
    else (if ps[0].active && LowStock(ps[0]) then 1 else 0) + LowStockCount(ps[1..])
  }

  /** The active products at or under their minimum, in catalogue order. */
  function LowStockProducts(ps: seq<Product>): (r: seq<Product>)
    ensures |r| == LowStockCount(ps)
    ensures forall x :: x in r <==> x in ps && x.active && LowStock(x)
  {
    if |ps| == 0 then []
    else (if ps[0].active && LowStock(ps[0]) then [ps[0]] else []) + LowStockProducts(ps[1..])
  }

  const AlertLimit: nat := 5

  /** `produtos_alerta`: the first five low-stock products. */
  function LowStockAlerts(ps: seq<Product>): (r: seq<Product>)
    ensures |r| == if LowStockCount(ps) < AlertLimit then LowStockCount(ps) else AlertLimit
    ensures forall x :: x in r ==> x in ps && x.active && LowStock(x)
    ensures LowStockCount(ps) <= AlertLimit ==> forall x :: x in ps && x.active && LowStock(x) ==> x in r
    ensures r == LowStockProducts(ps)[..|r|]
  {
    var all := LowStockProducts(ps);
    if |all| <= AlertLimit then all else all[..AlertLimit]
  }

  /** What one product adds to the stock value: nothing when inactive. */
  function Contribution(p: Product): TenThousandths {
    if p.active then StockValue(p) else 0
  }

  /** `valor_total_estoque` of the dashboard: the sum of quantity times cost
      over active products, 0 when there are none. */
  function TotalValue(ps: seq<Product>): (r: TenThousandths)
    ensures (forall i :: 0 <= i < |ps| ==> ps[i].current >= 0 && ps[i].cost >= 0) ==> r >= 0
    ensures ActiveCount(ps) == 0 ==> r == 0
  {
    if |ps| == 0 then 0 else Contribution(ps[0]) + TotalValue(ps[1..])
  }

  /** Replacing one product changes each figure by that product's own
      share. */
  lemma {:induction false} UpdateOne(ps: seq<Product>, i: nat, p: Product)
    requires i < |ps|
    ensures TotalValue(ps[i := p]) == TotalValue(ps) - Contribution(ps[i]) + Contribution(p)
    ensures ActiveCount(ps[i := p]) ==
      ActiveCount(ps) - (if ps[i].active then 1 else 0) + (if p.active then 1 else 0)
    ensures LowStockCount(ps[i := p]) ==
      LowStockCount(ps) - (if ps[i].active && LowStock(ps[i]) then 1 else 0)
                        + (if p.active && LowStock(p) then 1 else 0)
    decreases |ps|
  {
    if i > 0 {
      UpdateOne(ps[1..], i - 1, p);
      assert ps[i := p][1..] == ps[1..][i - 1 := p];
    } else {
      assert ps[i := p][1..] == ps[1..];
    }
  }

  /** A product saved with its balance moved by `q` adds `q` times its cost
      more to the stock value, if it is active. */
  lemma ContributionShift(p: Product, p2: Product, q: Hundredths)
    requires p2.active == p.active && p2.cost == p.cost && p2.current == p.current + q
    ensures Contribution(p2) == Contribution(p) + (if p.active then q * p.cost else 0)
  {
    StockValueShift(p, q);
    assert StockValue(p2) == StockValue(p.(current := p.current + q));
  }

  /** Recording a movement against an active product moves the stock value
      by the balance change times the product's cost. */
  lemma RecordedShiftsValue(s: Store, s2: Store, i: nat, m: Movement)
    requires Recorded(s, s2, i, m) && s.products[i].active
    ensures TotalValue(s2.products) == TotalValue(s.products) + (m.after - m.before) * s.products[i].cost
    ensures ActiveCount(s2.products) == ActiveCount(s.products)
  {
    var p, p2, d := s.products[i], s2.products[i], m.after - m.before;
    assert p2.active == p.active && p2.cost == p.cost && p2.current == p.current + d;
    assert s2.products == s.products[i := p2];
    assert TotalValue(s2.products) == TotalValue(s.products) - Contribution(p) + Contribution(p2)
        && ActiveCount(s2.products) == ActiveCount(s.products) by {
      UpdateOne(s.products, i, p2);
    }
    assert Contribution(p2) == Contribution(p) + d * p.cost by {
      ContributionShift(p, p2, d);
    }
  }

  /** An entry of `q` raises the dashboard's stock value by `q` times the
      product's cost; the product count is unchanged. */
  lemma EntryRaisesTotalValue(s: Store, pk: Key, f: MovementForm, ctx: Context)
    requires RecordEntry(s, pk, f, ctx).Ok?
    ensures var i := Find(s.products, pk).value;
      var q := CleanMovementForm(f).value.quantity;
      var s2 := RecordEntry(s, pk, f, ctx).value;
      && TotalValue(s2.products) == TotalValue(s.products) + q * s.products[i].cost
      && ActiveCount(s2.products) == ActiveCount(s.products)
  {
    var i := Find(s.products, pk).value;
    var q := CleanMovementForm(f).value.quantity;
    var s2 := RecordEntry(s, pk, f, ctx).value;
    var m := Last(s2.log);
    assert Recorded(s, s2, i, m) && m.after - m.before == q;
    RecordedShiftsValue(s, s2, i, m);
  }

  /** Recording a movement that takes `q` from an active product lowers
      the stock value by `q` times its cost. */
  lemma LoweredByExit(s: Store, s2: Store, i: nat, m: Movement, q: Hundredths)
    requires Recorded(s, s2, i, m) && s.products[i].active && m.after == m.before - q
    ensures TotalValue(s2.products) == TotalValue(s.products) - q * s.products[i].cost
  {
    RecordedShiftsValue(s, s2, i, m);
    NegatedFactor(m.after - m.before, q, s.products[i].cost);
  }

  /** Multiplying by a negated factor negates the product. */
  lemma NegatedFactor(d: int, q: int, c: int)
    requires d == -q
    ensures d * c == -(q * c)
  {
  }

  /** An exit of `q` lowers the dashboard's stock value by `q` times the
      product's cost. */
  lemma ExitLowersTotalValue(s: Store, pk: Key, f: MovementForm, ctx: Context)
    requires RecordExit(s, pk, f, ctx).Ok?
    ensures var i := Find(s.products, pk).value;
      var q := CleanMovementForm(f).value.quantity;
      var s2 := RecordExit(s, pk, f, ctx).value;
      TotalValue(s2.products) == TotalValue(s.products) - q * s.products[i].cost
  {
    var i := Find(s.products, pk).value;
    var q := CleanMovementForm(f).value.quantity;
    var s2 := RecordExit(s, pk, f, ctx).value;
    var m := Last(s2.log);
    assert Recorded(s, s2, i, m) && m.after == m.before - q;
    LoweredByExit(s, s2, i, m, q);
  }

  /** Deactivating a product takes it out of every dashboard figure. */
  lemma DeactivateLeavesDashboard(s: Store, pk: Key, ctx: Context)
    requires Deactivate(s, pk, ctx).Ok?
    ensures var i := Find(s.products, pk).value;
      var p := s.products[i];
      var s2 := Deactivate(s, pk, ctx).value;
      && ActiveCount(s2.products) == ActiveCount(s.products) - 1
      && LowStockCount(s2.products) == LowStockCount(s.products) - (if LowStock(p) then 1 else 0)
      && TotalValue(s2.products) == TotalValue(s.products) - StockValue(p)
  {
    var i := Find(s.products, pk).value;
    var s2 := Deactivate(s, pk, ctx).value;
    assert s2.products == s.products[i := s2.products[i]];
    UpdateOne(s.products, i, s2.products[i]);
  }

  /** A deactivated product is no longer found by the ledger views. */
  lemma DeactivatedNotFound(s: Store, pk: Key, ctx: Context, f: MovementForm)
    requires KeysUnique(s.products)
    requires Deactivate(s, pk, ctx).Ok?
    ensures var s2 := Deactivate(s, pk, ctx).value;
      && RecordEntry(s2, pk, f, ctx) == Err(NotFound)
      && RecordExit(s2, pk, f, ctx) == Err(NotFound)
  {
    var i := Find(s.products, pk).value;
    var s2 := Deactivate(s, pk, ctx).value;
    assert !Available(s2.products, pk);
  }

  /** `len(search) >= 2` and the result slice `[:10]`. */
  const SearchMinLength: nat := 2
  const SearchLimit: nat := 10

  /** The search filter: active, and the text occurs in the name, the code
      or the QR code, ignoring letter case. */
  predicate MatchesSearch(p: Product, search: string) {
    p.active
    && (ContainsIgnoreCase(p.name, search) || ContainsIgnoreCase(p.code, search)
        || ContainsIgnoreCase(p.qrCode, search))
  }

  /** The matching products, in catalogue order. */
  function Matching(ps: seq<Product>, search: string): (r: seq<Product>)
    ensures |r| <= |ps|
    ensures forall x :: x in r <==> x in ps && MatchesSearch(x, search)
    ensures |ps| == 1 ==> r == if MatchesSearch(ps[0], search) then ps else []
  {
    if |ps| == 0 then []
    else (if MatchesSearch(ps[0], search) then [ps[0]] else []) + Matching(ps[1..], search)
  }

  /** The matches of two catalogue pieces are the matches of each, in
      order: together with the one-product case this fixes Matching, each
      matching product appearing once per occurrence in the catalogue. */
  lemma {:induction false} MatchingAppend(a: seq<Product>, b: seq<Product>, search: string)
    ensures Matching(a + b, search) == Matching(a, search) + Matching(b, search)
    decreases |a|
  {
    if |a| == 0 {
      assert a + b == b;
    } else {
      assert (a + b)[1..] == a[1..] + b;
      MatchingAppend(a[1..], b, search);
    }
  }

  /** `buscar_produtos_htmx`: nothing for a search under two characters,
      otherwise the first ten matching active products. */
  function SearchProducts(ps: seq<Product>, search: string): (r: seq<Product>)
    ensures |search| < SearchMinLength ==> r == []
    ensures |r| <= SearchLimit
    ensures forall x :: x in r ==> x in ps && MatchesSearch(x, search)
    ensures |search| >= SearchMinLength ==>
      |r| <= |Matching(ps, search)| && r == Matching(ps, search)[..|r|]
    ensures |search| >= SearchMinLength && |Matching(ps, search)| <= SearchLimit ==>
      forall x :: x in ps && MatchesSearch(x, search) ==> x in r
    ensures |search| >= SearchMinLength ==>
      |r| == if |Matching(ps, search)| < SearchLimit then |Matching(ps, search)| else SearchLimit
  {
    if |search| < SearchMinLength then []
    else
      var all := Matching(ps, search);
      if |all| <= SearchLimit then all else all[..SearchLimit]
  }
}

=== FILE: forms.dfy ===
/** The validation rules of the application's forms (estoque/forms.py).

    Each validator receives the value its field has already cleaned (a
    `CharField` strips whitespace and turns an empty answer into `None`) and
    the stored records it compares against; `instance` is the primary key of
    the record being edited, `None` on creation. */
module Forms {
  import opened Results
  import opened Text
  import opened Models

  /** `max_length` of `MovimentacaoEstoque.motivo` and `.documento`. */
  const ReasonMaxLength: nat := 200
  const DocumentMaxLength: nat := 100

  /** Digits in a CNPJ, the Brazilian company registration number. */
  const CnpjDigits: nat := 14

  datatype FormError =
    | QuantityRequired
    | QuantityNotPositive
    | ReasonRequired
    | ReasonTooLong
    | DocumentTooLong
    | NullCharacter
    | DuplicateCode
    | DuplicateCategory
    | CnpjLength
    | DuplicateCnpj
    | DuplicateEmail

  /** The submitted fields of `MovimentacaoForm`. `quantity` is `None` when it
      is missing or is not a two-place decimal. */
  datatype MovementForm = MovementForm(
    quantity: Option<Hundredths>,
    reason: string,
    note: Option<string>,
    document: Option<string>)

  /** The cleaned data of a valid `MovimentacaoForm`. */
  datatype MovementData = MovementData(
    quantity: Hundredths,
    reason: string,
    note: Option<string>,
    document: Option<string>)

  /** The record `key` is the one being edited (`self.instance.pk`). */
  predicate IsSelf(key: Key, instance: Option<Key>) {
    instance.Some? && instance.value == key
  }

  /** Some record other than the one being edited satisfies `same`: the
      `filter(...).exclude(pk=...).exists()` query of the uniqueness checks. */
  function TakenByOther<T>(xs: seq<T>, key: T -> Key, same: T -> bool, instance: Option<Key>): (r: bool)
    ensures r <==> exists i :: 0 <= i < |xs| && same(xs[i]) && !IsSelf(key(xs[i]), instance)
  {
    if |xs| == 0 then false
    else (same(xs[0]) && !IsSelf(key(xs[0]), instance))
         || TakenByOther(xs[1..], key, same, instance)
  }

  /** `MovimentacaoForm.clean_quantidade`. */
  function CleanQuantity(q: Hundredths): (r: Result<Hundredths, FormError>)
    ensures r.Ok? <==> q > 0
    ensures r.Ok? ==> r.value == q
    ensures r.Err? ==> r.error == QuantityNotPositive
  {
    if q <= 0 then Err(QuantityNotPositive) else Ok(q)
  }

  /** On two-place decimals the form's "greater than zero" and the model's
      `MinValueValidator(0.01)` accept the same quantities. */
  lemma CleanQuantityMatchesFieldMinimum(q: Hundredths)
    ensures CleanQuantity(q).Ok? <==> q >= MinMovementQuantity
  {
  }

  /** The limit of `MinValueValidator(0.01)` is the float literal `0.01`,
      whose exact binary value is 5764607523034235 / 2^59, slightly above one
      hundredth. */
  const FloatHundredthNumerator: int := 5764607523034235
  const FloatHundredthDenominator: int := 576460752303423488

  /** `MinValueValidator(0.01)` as written, run on the movement quantity when
      the model form validates its instance: Python compares a `Decimal`
      with a `float` exactly, so the quantity `q / 100` must be at least the
      float's exact value. */
  predicate MinValidatorAsWritten(q: Hundredths) {
    q * FloatHundredthDenominator >= 100 * FloatHundredthNumerator
  }

  /** As written, the smallest quantity the movement field accepts is 0.02:
      a movement of 0.01, the declared minimum, is refused. */
  lemma MinValidatorAsWrittenThreshold(q: Hundredths)
    ensures MinValidatorAsWritten(q) <==> q >= MinMovementQuantity + 1
    ensures !MinValidatorAsWritten(MinMovementQuantity)
  {
    assert 100 * FloatHundredthNumerator == FloatHundredthDenominator + 12;
    if q >= 2 {
      assert q * FloatHundredthDenominator >= 2 * FloatHundredthDenominator;
    } else {
      assert q * FloatHundredthDenominator <= FloatHundredthDenominator;
    }
  }

  /** An optional text field: stripped, and `None` when nothing is left. */
  function CleanOptionalText(v: Option<string>): (r: Option<string>)
    ensures r.Some? ==> v.Some? && r.value == Strip(v.value) && r.value != ""
    ensures r.None? ==> v.None? || Strip(v.value) == ""
  {
    match v
    case None => None
    case Some(s) => if Strip(s) == "" then None else Some(Strip(s))
  }

  predicate FitsLength(v: Option<string>, n: nat) {
    v.None? || |v.value| <= n
  }

  /** The check of Django's `ProhibitNullCharactersValidator`, which every
      form `CharField` runs on a non-empty cleaned value. */
  predicate NulFree(v: Option<string>) {
    v.None? || '\0' !in v.value
  }

  /** `MovimentacaoForm.is_valid()`: quantity required and positive; reason
      required, at most 200 characters and free of NUL; note free of NUL;
      document at most 100 characters and free of NUL. The first failing
      check, in form order, is reported. */
  function CleanMovementForm(f: MovementForm): (r: Result<MovementData, FormError>)
    ensures r.Ok? <==>
      && f.quantity.Some? && f.quantity.value > 0
      && Strip(f.reason) != "" && |Strip(f.reason)| <= ReasonMaxLength
      && NulFree(Some(Strip(f.reason)))
      && NulFree(CleanOptionalText(f.note))
      && FitsLength(CleanOptionalText(f.document), DocumentMaxLength)
      && NulFree(CleanOptionalText(f.document))
    ensures f.quantity.None? ==> r == Err(QuantityRequired)
    ensures f.quantity.Some? && f.quantity.value <= 0 ==> r == Err(QuantityNotPositive)
    ensures r.Ok? ==>
      && r.value.quantity == f.quantity.value
      && r.value.quantity >= MinMovementQuantity
      && r.value.reason == Strip(f.reason)
      && r.value.note == CleanOptionalText(f.note)
      && r.value.document == CleanOptionalText(f.document)
  {
    match f.quantity
    case None => Err(QuantityRequired)
    case Some(raw) =>
      match CleanQuantity(raw)
      case Err(e) => Err(e)
      case Ok(q) =>
        var reason := Strip(f.reason);
        var document := CleanOptionalText(f.document);
        if reason == "" then Err(ReasonRequired)
        else if |reason| > ReasonMaxLength then Err(ReasonTooLong)
        else if !NulFree(Some(reason)) then Err(NullCharacter)
        else if !NulFree(CleanOptionalText(f.note)) then Err(NullCharacter)
        else if !FitsLength(document, DocumentMaxLength) then Err(DocumentTooLong)
        else if !NulFree(document) then Err(NullCharacter)
        else Ok(MovementData(q, reason, CleanOptionalText(f.note), document))
  }

  /** A NUL anywhere in the submitted reason survives stripping, so a reason
      that is otherwise acceptable is refused for it. */
  lemma NulReasonRefused(f: MovementForm, k: nat)
    requires f.quantity.Some? && f.quantity.value > 0
    requires Strip(f.reason) != "" && |Strip(f.reason)| <= ReasonMaxLength
    requires k < |f.reason| && f.reason[k] == '\0'
    ensures CleanMovementForm(f) == Err(NullCharacter)
  {
    StripKeepsInner(f.reason, k);
    assert !NulFree(Some(Strip(f.reason)));
  }

  /** A reason made only of blanks is refused like a missing one. */
  lemma BlankReasonRefused(f: MovementForm)
    requires f.quantity.Some? && f.quantity.value > 0
    requires forall k :: 0 <= k < |f.reason| ==> IsSpace(f.reason[k])
    ensures CleanMovementForm(f) == Err(ReasonRequired)
  {
  }

  /** The checks of `ProdutoForm.clean`. */
  datatype ProductCheck = SaleBelowCost | NegativeCurrent | NegativeMinimum

  /** Python truthiness of an optional decimal: present and not zero. */
  predicate Truthy(x: Option<Hundredths>) {
    x.Some? && x.value != 0
  }

  /** `ProdutoForm.clean`: the field errors it adds, given the cleaned cost,
      sale price, current and minimum quantities (`None` when that field
      failed its own validation). */
  function CleanProduct(cost: Option<Hundredths>, sale: Option<Hundredths>,
                        current: Option<Hundredths>, minimum: Option<Hundredths>): (r: set<ProductCheck>)
    ensures SaleBelowCost in r <==> Truthy(cost) && Truthy(sale) && sale.value < cost.value
    ensures NegativeCurrent in r <==> current.Some? && current.value < 0
    ensures NegativeMinimum in r <==> minimum.Some? && minimum.value < 0
  {
    (if Truthy(cost) && Truthy(sale) && sale.value < cost.value then {SaleBelowCost} else {})
    + (if Truthy(current) && current.value < 0 then {NegativeCurrent} else {})
    + (if Truthy(minimum) && minimum.value < 0 then {NegativeMinimum} else {})
  }

  /** With both prices set and non-zero, the price check flags exactly a sale
      price under the cost. */
  lemma PriceCheckWhenBothSet(cost: Hundredths, sale: Hundredths)
    requires cost > 0 && sale > 0
    ensures SaleBelowCost in CleanProduct(Some(cost), Some(sale), None, None) <==> sale < cost
  {
  }

  /** A zero sale price is falsy, so it is never compared with the cost:
      a product sold for 0.00 with a positive cost passes. */
  lemma ZeroSalePriceNotCompared(cost: Hundredths)
    requires cost > 0
    ensures SaleBelowCost !in CleanProduct(Some(cost), Some(0), None, None)
  {
  }

  /** Values that pass the model's `MinValueValidator(0)` never trip the
      quantity checks of `clean`: those checks only repeat the field bounds. */
  lemma QuantityChecksFollowFieldBounds(p: Product)
    requires ProductBoundsHold(p)
    ensures CleanProduct(Some(p.cost), Some(p.sale), Some(p.current), Some(p.minimum))
            <= {SaleBelowCost}
  {
  }

  /** `ProdutoForm.clean_codigo`: the code is refused when any other product,
      active or not, already has it. */
  function CleanCode(products: seq<Product>, code: string, instance: Option<Key>): (r: Result<string, FormError>)
    ensures r.Err? <==> exists i :: 0 <= i < |products| && products[i].code == code && !IsSelf(products[i].key, instance)
    ensures r.Ok? ==> r.value == code
    ensures r.Err? ==> r.error == DuplicateCode
  {
    if TakenByOther(products, (p: Product) => p.key, (p: Product) => p.code == code, instance)
    then Err(DuplicateCode) else Ok(code)
  }

  ghost predicate CodesUnique(ps: seq<Product>) {
    forall i, j :: 0 <= i < j < |ps| ==> ps[i].code != ps[j].code
  }

  /** Creating a product whose code passed the check keeps codes unique. */
  lemma CreateKeepsCodesUnique(ps: seq<Product>, p: Product)
    requires CodesUnique(ps)
    requires CleanCode(ps, p.code, None).Ok?
    ensures CodesUnique(ps + [p])
  {
    var qs := ps + [p];
    forall i, j | 0 <= i < j < |qs|
      ensures qs[i].code != qs[j].code
    {
      if j == |ps| {
        assert qs[i] == ps[i];
      }
    }
  }

  /** Editing a product without changing its code passes: the product's own
      row is excluded from the query. */
  lemma EditKeepsOwnCode(ps: seq<Product>, i: nat)
    requires i < |ps|
    requires CodesUnique(ps)
    ensures CleanCode(ps, ps[i].code, Some(ps[i].key)).Ok?
  {
  }

  /** Saving an edit whose code passed the check keeps codes unique. */
  lemma EditKeepsCodesUnique(ps: seq<Product>, i: nat, p: Product)
    requires i < |ps|
    requires CodesUnique(ps) && KeysUnique(ps)
    requires CleanCode(ps, p.code, Some(ps[i].key)).Ok?
    ensures CodesUnique(ps[i := p])
  {
    var qs := ps[i := p];
    forall a, b | 0 <= a < b < |qs|
      ensures qs[a].code != qs[b].code
    {
      if a == i {
        assert !(ps[b].code == p.code && !IsSelf(ps[b].key, Some(ps[i].key)));
      } else if b == i {
        assert !(ps[a].code == p.code && !IsSelf(ps[a].key, Some(ps[i].key)));
      }
    }
  }

  /** `CategoriaForm.clean_nome`: the name is refused when another category
      has the same name up to letter case. */
  function CleanCategoryName(categories: seq<Category>, name: string, instance: Option<Key>): (r: Result<string, FormError>)
    ensures r.Err? <==>
      exists i :: 0 <= i < |categories| && EqualsIgnoreCase(categories[i].name, name)
                  && !IsSelf(categories[i].key, instance)
    ensures r.Ok? ==> r.value == name
    ensures r.Err? ==> r.error == DuplicateCategory
  {
    if TakenByOther(categories, (c: Category) => c.key, (c: Category) => EqualsIgnoreCase(c.name, name), instance)
    then Err(DuplicateCategory) else Ok(name)
  }

  ghost predicate NamesUniqueIgnoringCase(cs: seq<Category>) {
    forall i, j :: 0 <= i < j < |cs| ==> !EqualsIgnoreCase(cs[i].name, cs[j].name)
  }

  /** Creating a category whose name passed the check keeps names unique
      up to letter case. */
  lemma CreateKeepsNamesUnique(cs: seq<Category>, c: Category)
    requires NamesUniqueIgnoringCase(cs)
    requires CleanCategoryName(cs, c.name, None).Ok?
    ensures NamesUniqueIgnoringCase(cs + [c])
  {
    var ds := cs + [c];
    forall i, j | 0 <= i < j < |ds|
      ensures !EqualsIgnoreCase(ds[i].name, ds[j].name)
    {
      if j == |cs| {
        assert ds[i] == cs[i];
      }
    }
  }

  /** A name that differs from an existing category only in letter case is
      refused. */
  lemma CaseVariantRefused(cs: seq<Category>, i: nat, name: string)
    requires i < |cs|
    requires |name| == |cs[i].name|
    requires forall k :: 0 <= k < |name| ==> LowerChar(name[k]) == LowerChar(cs[i].name[k])
    ensures CleanCategoryName(cs, name, None) == Err(DuplicateCategory)
  {
    assert Lower(name) == Lower(cs[i].name);
  }

  /** `FornecedorForm.clean_cnpj`: an empty value passes. Otherwise its digits
      must number exactly 14, and no other supplier may have the same value;
      the value is returned as typed, separators included. */
  function CleanCnpj(suppliers: seq<Supplier>, cnpj: Option<string>, instance: Option<Key>): (r: Result<Option<string>, FormError>)
    ensures cnpj.None? || cnpj == Some("") ==> r == Ok(cnpj)
    ensures r.Ok? ==> r.value == cnpj
    ensures r == Err(CnpjLength) <==> cnpj.Some? && cnpj.value != "" && |Digits(cnpj.value)| != CnpjDigits
    ensures r == Err(DuplicateCnpj) <==>
      && cnpj.Some? && cnpj.value != "" && |Digits(cnpj.value)| == CnpjDigits
      && exists i :: 0 <= i < |suppliers| && suppliers[i].cnpj == cnpj && !IsSelf(suppliers[i].key, instance)
    ensures r.Err? ==> r.error == CnpjLength || r.error == DuplicateCnpj
  {
    match cnpj
    case None => Ok(cnpj)
    case Some(s) =>
      if s == "" then Ok(cnpj)
      else if |Digits(s)| != CnpjDigits then Err(CnpjLength)
      else if TakenByOther(suppliers, (f: Supplier) => f.key, (f: Supplier) => f.cnpj == cnpj, instance)
      then Err(DuplicateCnpj)
      else Ok(cnpj)
  }

  /** The duplicate check compares the values as typed: the same fourteen
      digits with a separator put in (as in "12.345.678/0001-90") are not
      recognised as the bare digits already on file, and pass. */
  lemma {:induction false} CnpjDuplicateComparesTypedText(existing: Supplier, digits: string, sep: char, k: nat)
    requires |digits| == CnpjDigits && forall j :: 0 <= j < |digits| ==> IsDigit(digits[j])
    requires !IsDigit(sep) && 0 < k < |digits|
    requires existing.cnpj == Some(digits)
    ensures var typed := digits[..k] + [sep] + digits[k..];
      CleanCnpj([existing], Some(typed), None) == Ok(Some(typed))
  {
    var typed := digits[..k] + [sep] + digits[k..];
    DigitsAppend(digits[..k] + [sep], digits[k..]);
    DigitsAppend(digits[..k], [sep]);
    assert digits[..k] + digits[k..] == digits;
    assert Digits(typed) == digits;
    assert |typed| != |digits|;
  }

  /** `FornecedorForm.clean_email`: an empty value passes; otherwise no
      other supplier may have the same address. */
  function CleanEmail(suppliers: seq<Supplier>, email: Option<string>, instance: Option<Key>): (r: Result<Option<string>, FormError>)
    ensures email.None? || email == Some("") ==> r == Ok(email)
    ensures r.Ok? ==> r.value == email
    ensures r.Err? <==>
      && email.Some? && email.value != ""
      && exists i :: 0 <= i < |suppliers| && suppliers[i].email == email && !IsSelf(suppliers[i].key, instance)
    ensures r.Err? ==> r.error == DuplicateEmail
  {
    match email
    case None => Ok(email)
    case Some(s) =>
      if s == "" then Ok(email)
      else if TakenByOther(suppliers, (f: Supplier) => f.key, (f: Supplier) => f.email == email, instance)
      then Err(DuplicateEmail)
      else Ok(email)
  }

  /** No two suppliers share a non-empty value of `field`. */
  ghost predicate FilledUnique(fs: seq<Supplier>, field: Supplier -> Option<string>) {
    forall i, j :: 0 <= i < j < |fs| && field(fs[i]).Some? && field(fs[i]).value != "" ==>
      field(fs[i]) != field(fs[j])
  }

  /** Creating a supplier whose CNPJ and e-mail passed their checks keeps
      both unique among the suppliers that have one. */
  lemma CreateKeepsSupplierFieldsUnique(fs: seq<Supplier>, f: Supplier)
    requires FilledUnique(fs, (x: Supplier) => x.cnpj) && FilledUnique(fs, (x: Supplier) => x.email)
    requires CleanCnpj(fs, f.cnpj, None).Ok? && CleanEmail(fs, f.email, None).Ok?
    ensures FilledUnique(fs + [f], (x: Supplier) => x.cnpj)
    ensures FilledUnique(fs + [f], (x: Supplier) => x.email)
  {
    var gs := fs + [f];
    forall i, j | 0 <= i < j < |gs| && gs[i].cnpj.Some? && gs[i].cnpj.value != ""
      ensures gs[i].cnpj != gs[j].cnpj
    {
      if j == |fs| {
        assert gs[i] == fs[i];
      }
    }
    forall i, j | 0 <= i < j < |gs| && gs[i].email.Some? && gs[i].email.value != ""
      ensures gs[i].email != gs[j].email
    {
      if j == |fs| {
        assert gs[i] == fs[i];
      }
    }
  }
}

=== FILE: ledger.dfy ===
/** The stock ledger: the three balance-changing views of estoque/views.py
    (`entrada_estoque`, `saida_estoque`, `ajuste_estoque`) and the soft delete
    `produto_delete`, as pure transitions of the stored state.

    A transition either fails, and then the state is left exactly as it was
    (the view writes nothing), or commits: it appends one movement to the log
    and saves the product with its new balance. The view's two writes
    (movement, then product) are one step here. */
module Ledger {
  import opened Results
  import opened Text
  import opened Models
  import opened Forms

  /** The stored products and the movement log, oldest first. */
  datatype Store = Store(products: seq<Product>, log: seq<Movement>)

  /** What a request brings besides its form: the signed-in user, the clock,
      and the random suffix `Produto.save` would use for a missing QR code. */
  datatype Context = Context(actor: Key, now: int, qrSuffix: string)

  datatype LedgerError =
    | NotFound              // no active product with that key: the 404 page
    | InvalidForm(cause: FormError)
    | InsufficientStock     // 'Quantidade insuficiente em estoque!'
    | NegativeTarget        // 'A quantidade não pode ser negativa!'
    | InvalidNumber         // 'Quantidade inválida!'

  /** The POST fields of `ajuste_estoque`. `target` is `None` when
      `nova_quantidade` is missing or does not parse as a number; `reason`
      is `None` when `motivo` is missing. */
  datatype AdjustmentForm = AdjustmentForm(target: Option<Hundredths>, reason: Option<string>)

  const DefaultAdjustmentReason: string := "Ajuste de estoque"

  /** `get_object_or_404(Produto, pk=pk, ativo=True)` succeeds. */
  predicate Available(ps: seq<Product>, pk: Key) {
    exists i :: 0 <= i < |ps| && ps[i].key == pk && ps[i].active
  }

  /** The position of the first active product with key `pk`. */
  function Find(ps: seq<Product>, pk: Key): (r: Option<nat>)
    ensures r.Some? <==> Available(ps, pk)
    ensures r.Some? ==> r.value < |ps| && ps[r.value].key == pk && ps[r.value].active
    ensures r.Some? ==> forall j :: 0 <= j < r.value ==> !(ps[j].key == pk && ps[j].active)
  {
    if |ps| == 0 then None
    else if ps[0].key == pk && ps[0].active then Some(0)
    else
      match Find(ps[1..], pk)
      case None => None
      case Some(k) => Some(k + 1)
  }

  /** `p2` is `p1` saved again: only the balance may differ, and the QR code,
      which is kept when it was set. */
  predicate SameProductButBalance(p1: Product, p2: Product) {
    p2.(current := p1.current, qrCode := p1.qrCode) == p1
    && (p1.qrCode != "" ==> p2.qrCode == p1.qrCode)
    && p2.qrCode != ""
  }

  /** `s2` is `s1` after recording movement `m` against the product at `i`:
      the movement is appended, it starts from that product's balance, the
      product now holds the movement's closing balance, and nothing else
      changed. */
  ghost predicate Recorded(s1: Store, s2: Store, i: nat, m: Movement) {
    && i < |s1.products|
    && |s2.products| == |s1.products|
    && s2.log == s1.log + [m]
    && m.product == s1.products[i].key
    && m.before == s1.products[i].current
    && s2.products[i].current == m.after
    && SameProductButBalance(s1.products[i], s2.products[i])
    && forall j :: 0 <= j < |s1.products| && j != i ==> s2.products[j] == s1.products[j]
  }

  function Last(log: seq<Movement>): Movement
    requires |log| > 0
  {
    log[|log| - 1]
  }

  /** Append `m` and save product `i` with balance `m.after`. */
  function Commit(s: Store, i: nat, m: Movement, ctx: Context): (r: Store)
    requires i < |s.products|
    requires m.product == s.products[i].key && m.before == s.products[i].current
    ensures Recorded(s, r, i, m)
    ensures s.products[i].qrCode == "" ==>
      && IsPrefix(QrPrefix(s.products[i].code), r.products[i].qrCode)
      && r.products[i].qrCode[|QrPrefix(s.products[i].code)|..] == ctx.qrSuffix
  {
    Store(s.products[i := SaveProduct(s.products[i].(current := m.after), ctx.qrSuffix)],
          s.log + [m])
  }

  /** `entrada_estoque`, POST with the movement form. */
  function RecordEntry(s: Store, pk: Key, f: MovementForm, ctx: Context): (r: Result<Store, LedgerError>)
    ensures !Available(s.products, pk) ==> r == Err(NotFound)
    ensures Available(s.products, pk) && CleanMovementForm(f).Err? ==>
      r == Err(InvalidForm(CleanMovementForm(f).error))
    ensures r.Ok? <==> Available(s.products, pk) && CleanMovementForm(f).Ok?
    ensures r.Ok? ==>
      && Find(s.products, pk).Some? && CleanMovementForm(f).Ok? && |r.value.log| > 0
      && var m := Last(r.value.log);
         var d := CleanMovementForm(f).value;
         && Recorded(s, r.value, Find(s.products, pk).value, m)
         && m.kind == Entry
         && m.quantity == d.quantity
         && m.after == m.before + d.quantity
         && m.reason == d.reason && m.note == d.note && m.document == d.document
         && m.actor == ctx.actor && m.at == ctx.now
  {
    match Find(s.products, pk)
    case None => Err(NotFound)
    case Some(i) =>
      match CleanMovementForm(f)
      case Err(e) => Err(InvalidForm(e))
      case Ok(d) =>
        var p := s.products[i];
        var m := Movement(pk, Entry, d.quantity, p.current, p.current + d.quantity,
                          d.reason, d.note, d.document, ctx.actor, ctx.now);
        Ok(Commit(s, i, m, ctx))
  }

  /** `saida_estoque`, POST with the movement form. An exit larger than the
      balance is refused; an exit of exactly the balance empties it. */
  function RecordExit(s: Store, pk: Key, f: MovementForm, ctx: Context): (r: Result<Store, LedgerError>)
    ensures !Available(s.products, pk) ==> r == Err(NotFound)
    ensures Available(s.products, pk) && CleanMovementForm(f).Err? ==>
      r == Err(InvalidForm(CleanMovementForm(f).error))
    ensures Available(s.products, pk) && CleanMovementForm(f).Ok? ==>
      (r == Err(InsufficientStock) <==>
         CleanMovementForm(f).value.quantity > s.products[Find(s.products, pk).value].current)
    ensures r.Ok? <==>
      && Available(s.products, pk) && CleanMovementForm(f).Ok?
      && CleanMovementForm(f).value.quantity <= s.products[Find(s.products, pk).value].current
    ensures r.Ok? ==>
      && Find(s.products, pk).Some? && CleanMovementForm(f).Ok? && |r.value.log| > 0
      && var m := Last(r.value.log);
         var d := CleanMovementForm(f).value;
         && Recorded(s, r.value, Find(s.products, pk).value, m)
         && m.kind == Exit
         && m.quantity == d.quantity
         && m.after == m.before - d.quantity
         && m.after >= 0
         && m.reason == d.reason && m.note == d.note && m.document == d.document
         && m.actor == ctx.actor && m.at == ctx.now
  {
    match Find(s.products, pk)
    case None => Err(NotFound)
    case Some(i) =>
      match CleanMovementForm(f)
      case Err(e) => Err(InvalidForm(e))
      case Ok(d) =>
        var p := s.products[i];
        if d.quantity > p.current then Err(InsufficientStock)
        else
          var m := Movement(pk, Exit, d.quantity, p.current, p.current - d.quantity,
                            d.reason, d.note, d.document, ctx.actor, ctx.now);
          Ok(Commit(s, i, m, ctx))
  }

  /** `motivo or 'Ajuste de estoque'`: a missing or empty reason gets the
      default text; any other reason, even one of blanks, is kept. */
  function AdjustmentReason(reason: Option<string>): (r: string)
    ensures r != ""
    ensures reason.Some? && reason.value != "" ==> r == reason.value
    ensures reason.None? || reason == Some("") ==> r == DefaultAdjustmentReason
  {
    match reason
    case Some(text) => if text != "" then text else DefaultAdjustmentReason
    case None => DefaultAdjustmentReason
  }

  /** `ajuste_estoque`, as its code evidently intends (see AdjustmentAsWritten
      for what the code does): the balance becomes the target, and the
      movement logs the size of the change, even when it is zero. */
  function RecordAdjustment(s: Store, pk: Key, a: AdjustmentForm, ctx: Context): (r: Result<Store, LedgerError>)
    ensures !Available(s.products, pk) ==> r == Err(NotFound)
    ensures Available(s.products, pk) && a.target.None? ==> r == Err(InvalidNumber)
    ensures Available(s.products, pk) && a.target.Some? && a.target.value < 0 ==> r == Err(NegativeTarget)
    ensures r.Ok? <==> Available(s.products, pk) && a.target.Some? && a.target.value >= 0
    ensures r.Ok? ==>
      && Find(s.products, pk).Some? && |r.value.log| > 0
      && var m := Last(r.value.log);
         && Recorded(s, r.value, Find(s.products, pk).value, m)
         && m.kind == Adjustment
         && m.after == a.target.value
         && m.quantity == Abs(m.after - m.before)
         && m.reason == AdjustmentReason(a.reason)
         && m.note.None? && m.document.None?
         && m.actor == ctx.actor && m.at == ctx.now
  {
    match Find(s.products, pk)
    case None => Err(NotFound)
    case Some(i) =>
      match a.target
      case None => Err(InvalidNumber)
      case Some(t) =>
        if t < 0 then Err(NegativeTarget)
        else
          var p := s.products[i];
          var m := Movement(pk, Adjustment, Abs(t - p.current), p.current, t,
                            AdjustmentReason(a.reason), None, None, ctx.actor, ctx.now);
          Ok(Commit(s, i, m, ctx))
  }

  /** The two kinds of Python number that meet in `ajuste_estoque`: the
      target parsed with `float()` and the stored `Decimal` balance. Values
      are in hundredths; float rounding is not modelled. */
  datatype PyNumber = PyFloat(v: int) | PyDecimal(v: int)

  /** Python subtraction: `Decimal` refuses arithmetic with `float` and the
      expression raises `TypeError`. */
  function PySubtract(x: PyNumber, y: PyNumber): (r: Result<PyNumber, string>)
    ensures r.Err? <==> x.PyFloat? != y.PyFloat?
    ensures r.Ok? ==> r.value.v == x.v - y.v && r.value.PyFloat? == x.PyFloat?
  {
    match (x, y)
    case (PyFloat(a), PyFloat(b)) => Ok(PyFloat(a - b))
    case (PyDecimal(a), PyDecimal(b)) => Ok(PyDecimal(a - b))
    case _ => Err("TypeError")
  }

  /** `ajuste_estoque` as written: the movement quantity is computed as
      `abs(nova_quantidade - produto.quantidade_atual)`, a float minus a
      Decimal. The `TypeError` it raises is caught by the view's
      `except (ValueError, TypeError)`, which reports an invalid quantity. */
  function AdjustmentAsWritten(s: Store, pk: Key, a: AdjustmentForm, ctx: Context): (r: Result<Store, LedgerError>)
    ensures !Available(s.products, pk) ==> r == Err(NotFound)
    ensures Available(s.products, pk) && a.target.None? ==> r == Err(InvalidNumber)
    ensures Available(s.products, pk) && a.target.Some? && a.target.value < 0 ==> r == Err(NegativeTarget)
  {
    match Find(s.products, pk)
    case None => Err(NotFound)
    case Some(i) =>
      match a.target
      case None => Err(InvalidNumber)
      case Some(t) =>
        if t < 0 then Err(NegativeTarget)
        else
          var p := s.products[i];
          match PySubtract(PyFloat(t), PyDecimal(p.current))
          case Err(_) => Err(InvalidNumber)
          case Ok(diff) =>
            var m := Movement(pk, Adjustment, Abs(diff.v), p.current, t,
                              AdjustmentReason(a.reason), None, None, ctx.actor, ctx.now);
            Ok(Commit(s, i, m, ctx))
  }

  /** As written, no adjustment is ever recorded: every request that reaches
      the subtraction is answered 'Quantidade inválida!' and the state is
      unchanged, where the intended transition records it. */
  lemma {:induction false} AdjustmentAsWrittenNeverRecords(s: Store, pk: Key, a: AdjustmentForm, ctx: Context)
    ensures AdjustmentAsWritten(s, pk, a, ctx).Err?
    ensures RecordAdjustment(s, pk, a, ctx).Ok? ==> AdjustmentAsWritten(s, pk, a, ctx) == Err(InvalidNumber)
  {
    match Find(s.products, pk)
    case None =>
    case Some(i) =>
      match a.target
      case None =>
      case Some(t) =>
        if t >= 0 {
          assert PySubtract(PyFloat(t), PyDecimal(s.products[i].current)).Err?;
        }
  }

  /** `produto_delete`, POST: the product is deactivated and saved; its
      movement history stays. */
  function Deactivate(s: Store, pk: Key, ctx: Context): (r: Result<Store, LedgerError>)
    ensures r.Err? <==> !Available(s.products, pk)
    ensures r.Err? ==> r.error == NotFound
    ensures r.Ok? ==>
      && Find(s.products, pk).Some?
      && var i := Find(s.products, pk).value;
         && |r.value.products| == |s.products|
         && r.value.log == s.log
         && !r.value.products[i].active
         && r.value.products[i].(active := true) == SaveProduct(s.products[i], ctx.qrSuffix)
         && forall j :: 0 <= j < |s.products| && j != i ==> r.value.products[j] == s.products[j]
  {
    match Find(s.products, pk)
    case None => Err(NotFound)
    case Some(i) =>
      Ok(Store(s.products[i := SaveProduct(s.products[i].(active := false), ctx.qrSuffix)], s.log))
  }

  /** One request to the ledger, dispatched like the URL routes do. */
  datatype Request =
    | EntryRequest(form: MovementForm)
    | ExitRequest(form: MovementForm)
    | AdjustmentRequest(adjustment: AdjustmentForm)

  /** The kind of movement a request records when it is accepted. */
  function RequestKind(req: Request): MovementKind {
    match req
    case EntryRequest(_) => Entry
    case ExitRequest(_) => Exit
    case AdjustmentRequest(_) => Adjustment
  }

  /** A request to an unavailable product is a 404; an accepted one records a
      single movement of the request's kind against the product it names. */
  function Apply(s: Store, pk: Key, req: Request, ctx: Context): (r: Result<Store, LedgerError>)
    ensures !Available(s.products, pk) ==> r == Err(NotFound)
    ensures r.Ok? <==>
      && Available(s.products, pk)
      && match req
         case EntryRequest(f) => CleanMovementForm(f).Ok?
         case ExitRequest(f) =>
           && CleanMovementForm(f).Ok?
           && CleanMovementForm(f).value.quantity <= s.products[Find(s.products, pk).value].current
         case AdjustmentRequest(a) => a.target.Some? && a.target.value >= 0
    ensures r.Ok? ==>
      && Find(s.products, pk).Some? && |r.value.log| > 0
      && Recorded(s, r.value, Find(s.products, pk).value, Last(r.value.log))
      && Last(r.value.log).product == pk
      && Last(r.value.log).kind == RequestKind(req)
  {
    match req
    case EntryRequest(f) => RecordEntry(s, pk, f, ctx)
    case ExitRequest(f) => RecordExit(s, pk, f, ctx)
    case AdjustmentRequest(a) => RecordAdjustment(s, pk, a, ctx)
  }

  /** The state after a request: the committed state, or the old one when the
      request was refused. */
  function Step(s: Store, pk: Key, req: Request, ctx: Context): (r: Store)
    ensures r == s || exists i, m :: Recorded(s, r, i, m)
  {
    match Apply(s, pk, req, ctx)
    case Ok(s2) => s2
    case Err(_) => s
  }

  datatype Call = Call(pk: Key, req: Request, ctx: Context)

  /** A sequence of requests served one after another. The ledger never
      adds, removes or re-keys a product. */
  function Run(s: Store, calls: seq<Call>): (r: Store)
    ensures |r.products| == |s.products|
    ensures forall j :: 0 <= j < |s.products| ==> r.products[j].key == s.products[j].key
    decreases |calls|
  {
    if |calls| == 0 then s
    else Run(Step(s, calls[0].pk, calls[0].req, calls[0].ctx), calls[1..])
  }
}

=== FILE: ledger_invariants.dfy ===
/** What the ledger transitions keep true: balances never go negative, every
    logged movement obeys its kind's arithmetic, and each product's balance
    is the closing balance of its latest movement, each movement opening
    where the previous one for that product closed. */
module LedgerInvariants {
  import opened Results
  import opened Models
  import opened Forms
  import opened Ledger

  /** The movements of product `pk`, oldest first. */
  function History(log: seq<Movement>, pk: Key): (r: seq<Movement>)
    ensures |r| <= |log|
    ensures forall k :: 0 <= k < |r| ==> r[k].product == pk
  {
    if |log| == 0 then []
    else History(log[..|log| - 1], pk) + (if Last(log).product == pk then [Last(log)] else [])
  }

  lemma HistoryAppend(log: seq<Movement>, m: Movement, pk: Key)
    ensures History(log + [m], pk) == History(log, pk) + (if m.product == pk then [m] else [])
  {
    assert (log + [m])[..|log|] == log;
  }

  /** The change a movement makes to the balance: plus the quantity for an
      entry, minus it for an exit, the difference itself for an adjustment
      (whose quantity holds only the size of the change). */
  function SignedDelta(m: Movement): int {
    match m.kind
    case Entry => m.quantity
    case Exit => -m.quantity
    case Adjustment => m.after - m.before
  }

  /** A movement as the views write it. */
  predicate WellFormed(m: Movement) {
    && m.before >= 0 && m.after >= 0
    && m.after == m.before + SignedDelta(m)
    && (m.kind == Adjustment ==> m.quantity == Abs(m.after - m.before))
    && (m.kind != Adjustment ==> m.quantity >= MinMovementQuantity)
  }

  /** Each movement opens at the balance the previous one closed at. */
  ghost predicate Chained(h: seq<Movement>) {
    forall k :: 0 < k < |h| ==> h[k].before == h[k - 1].after
  }

  /** The product's balance is where its history leaves it. */
  ghost predicate Agrees(p: Product, h: seq<Movement>) {
    Chained(h) && (|h| > 0 ==> Last(h).after == p.current)
  }

  ghost predicate Consistent(s: Store) {
    && KeysUnique(s.products)
    && (forall i :: 0 <= i < |s.products| ==> s.products[i].current >= 0)
    && (forall j :: 0 <= j < |s.log| ==> WellFormed(s.log[j]))
    && (forall i :: 0 <= i < |s.products| ==> Agrees(s.products[i], History(s.log, s.products[i].key)))
  }

  /** A catalogue with non-negative balances and no movements yet is a
      consistent starting point. */
  lemma EmptyLogConsistent(ps: seq<Product>)
    requires KeysUnique(ps)
    requires forall i :: 0 <= i < |ps| ==> ps[i].current >= 0
    ensures Consistent(Store(ps, []))
  {
  }

  /** Recording a well-formed movement keeps the store consistent. */
  lemma RecordedKeepsConsistent(s: Store, s2: Store, i: nat, m: Movement)
    requires Consistent(s)
    requires Recorded(s, s2, i, m)
    requires WellFormed(m)
    ensures Consistent(s2)
  {
    assert forall j :: 0 <= j < |s.products| ==> s2.products[j].key == s.products[j].key;
    forall j | 0 <= j < |s2.log|
      ensures WellFormed(s2.log[j])
    {
      if j < |s.log| {
        assert s2.log[j] == s.log[j];
      }
    }
    forall j | 0 <= j < |s2.products|
      ensures Agrees(s2.products[j], History(s2.log, s2.products[j].key))
    {
      var pk := s.products[j].key;
      HistoryAppend(s.log, m, pk);
      if j == i {
        var h := History(s.log, pk);
        assert Agrees(s.products[i], h);
        assert History(s2.log, pk) == h + [m];
      } else {
        assert s.products[j].key != s.products[i].key;
      }
    }
  }

  /** An accepted request records a well-formed movement, given that the
      balance it starts from is not negative. */
  lemma AcceptedIsWellFormed(s: Store, pk: Key, req: Request, ctx: Context)
    requires Apply(s, pk, req, ctx).Ok?
    requires forall i :: 0 <= i < |s.products| ==> s.products[i].current >= 0
    ensures WellFormed(Last(Apply(s, pk, req, ctx).value.log))
  {
    var m := Last(Apply(s, pk, req, ctx).value.log);
    assert m.before >= 0;
    match req
    case EntryRequest(f) =>
      assert m.quantity == CleanMovementForm(f).value.quantity;
    case ExitRequest(f) =>
      assert m.quantity == CleanMovementForm(f).value.quantity;
    case AdjustmentRequest(a) =>
  }

  /** Every request keeps the store consistent, whether it is refused (the
      store is unchanged) or accepted (it records one well-formed movement
      chained at the product's balance). */
  lemma StepKeepsConsistent(s: Store, pk: Key, req: Request, ctx: Context)
    requires Consistent(s)
    ensures Consistent(Step(s, pk, req, ctx))
  {
    var r := Apply(s, pk, req, ctx);
    if r.Ok? {
      AcceptedIsWellFormed(s, pk, req, ctx);
      RecordedKeepsConsistent(s, r.value, Find(s.products, pk).value, Last(r.value.log));
    }
  }

  /** However many requests are served, in whatever order and whether or not
      they succeed, the store stays consistent; in particular no balance
      ever goes negative. */
  lemma {:induction false} RunKeepsConsistent(s: Store, calls: seq<Call>)
    requires Consistent(s)
    ensures Consistent(Run(s, calls))
    ensures forall i :: 0 <= i < |Run(s, calls).products| ==> Run(s, calls).products[i].current >= 0
    decreases |calls|
  {
    if |calls| > 0 {
      StepKeepsConsistent(s, calls[0].pk, calls[0].req, calls[0].ctx);
      RunKeepsConsistent(Step(s, calls[0].pk, calls[0].req, calls[0].ctx), calls[1..]);
    }
  }

  /** The log only grows: served requests never rewrite or drop a movement,
      and each adds at most one. */
  lemma {:induction false} RunExtendsLog(s: Store, calls: seq<Call>)
    ensures |s.log| <= |Run(s, calls).log| <= |s.log| + |calls|
    ensures Run(s, calls).log[..|s.log|] == s.log
    ensures |Run(s, calls).products| == |s.products|
    decreases |calls|
  {
    if |calls| > 0 {
      var s1 := Step(s, calls[0].pk, calls[0].req, calls[0].ctx);
      RunExtendsLog(s1, calls[1..]);
      var r := Run(s1, calls[1..]);
      assert r.log[..|s.log|] == r.log[..|s1.log|][..|s.log|];
    }
  }

  /** Soft deletion keeps the store consistent and the history intact. */
  lemma DeactivateKeepsConsistent(s: Store, pk: Key, ctx: Context)
    requires Consistent(s)
    requires Deactivate(s, pk, ctx).Ok?
    ensures Consistent(Deactivate(s, pk, ctx).value)
  {
    var s2 := Deactivate(s, pk, ctx).value;
    assert forall j :: 0 <= j < |s.products| ==>
      s2.products[j].key == s.products[j].key && s2.products[j].current == s.products[j].current;
  }

  /** Replaying a history: the balance reached from `b` by applying each
      movement's signed change. */
  function Replay(b: int, h: seq<Movement>): int {
    if |h| == 0 then b else Replay(b, h[..|h| - 1]) + SignedDelta(Last(h))
  }

  /** A chained history of well-formed movements closes exactly where
      replaying its changes from its opening balance leads. */
  lemma {:induction false} ReplayChained(h: seq<Movement>)
    requires |h| > 0
    requires Chained(h)
    requires forall k :: 0 <= k < |h| ==> WellFormed(h[k])
    ensures Replay(h[0].before, h) == Last(h).after
    decreases |h|
  {
    var p := h[..|h| - 1];
    if |p| > 0 {
      assert Chained(p) by {
        forall k | 0 < k < |p| ensures p[k].before == p[k - 1].after {
          assert p[k] == h[k] && p[k - 1] == h[k - 1];
        }
      }
      assert p[0] == h[0];
      ReplayChained(p);
      assert Last(p) == h[|h| - 2];
    }
    assert WellFormed(Last(h));
  }

  /** In a consistent store every product's balance is its history replayed:
      the first movement's opening balance plus all signed changes since. */
  lemma BalanceIsReplayedHistory(s: Store, i: nat)
    requires Consistent(s)
    requires i < |s.products|
    requires |History(s.log, s.products[i].key)| > 0
    ensures var h := History(s.log, s.products[i].key);
      s.products[i].current == Replay(h[0].before, h)
  {
    var h := History(s.log, s.products[i].key);
    HistoryWellFormed(s.log, s.products[i].key);
    ReplayChained(h);
  }

  lemma {:induction false} HistoryWellFormed(log: seq<Movement>, pk: Key)
    requires forall j :: 0 <= j < |log| ==> WellFormed(log[j])
    ensures forall k :: 0 <= k < |History(log, pk)| ==> WellFormed(History(log, pk)[k])
    decreases |log|
  {
    if |log| > 0 {
      HistoryWellFormed(log[..|log| - 1], pk);
    }
  }
}

=== FILE: ledger_laws.dfy ===
/** Relations between ledger operations: an exit undoes an entry of the same
    quantity, adjusting to the current balance changes nothing but the log,
    a refused request leaves the store as it was, and a worked example of
    exits and an adjustment on one product. */
module LedgerLaws {
  import opened Results
  import Text
  import opened Models
  import opened Forms
  import opened Ledger
  import opened LedgerInvariants

  /** Committing at the position `Find` chose keeps that position found. */
  lemma FindAfterRecorded(s: Store, s2: Store, i: nat, m: Movement, pk: Key)
    requires Find(s.products, pk) == Some(i)
    requires Recorded(s, s2, i, m)
    ensures Find(s2.products, pk) == Some(i)
  {
    assert s2.products[i].key == pk && s2.products[i].active;
  }

  /** An exit of the quantity just entered brings the balance back to where
      it was, and leaves two movements whose balances mirror each other. */
  lemma ExitUndoesEntry(s: Store, pk: Key, f: MovementForm, ctx1: Context, ctx2: Context)
    requires Consistent(s)
    requires RecordEntry(s, pk, f, ctx1).Ok?
    ensures var s1 := RecordEntry(s, pk, f, ctx1).value;
      && RecordExit(s1, pk, f, ctx2).Ok?
      && var s2 := RecordExit(s1, pk, f, ctx2).value;
         var i := Find(s.products, pk).value;
         && s2.products[i].current == s.products[i].current
         && |s2.log| == |s.log| + 2
         && s2.log[|s.log|].before == s2.log[|s.log| + 1].after
         && s2.log[|s.log|].after == s2.log[|s.log| + 1].before
  {
    var s1 := RecordEntry(s, pk, f, ctx1).value;
    var i := Find(s.products, pk).value;
    FindAfterRecorded(s, s1, i, Last(s1.log), pk);
    assert s.products[i].current >= 0;
    var s2 := RecordExit(s1, pk, f, ctx2).value;
    assert s2.log[|s.log|] == s1.log[|s.log|];
  }

  /** Adjusting to the balance already held changes no balance but still
      logs an adjustment, of quantity zero; that quantity is below the
      0.01 minimum the movement model declares (the view creates the row
      without running field validators). */
  lemma AdjustToCurrentBalance(s: Store, pk: Key, reason: Option<string>, ctx: Context)
    requires Available(s.products, pk)
    ensures var i := Find(s.products, pk).value;
      var a := AdjustmentForm(Some(s.products[i].current), reason);
      s.products[i].current >= 0 ==>
        && RecordAdjustment(s, pk, a, ctx).Ok?
        && var s2 := RecordAdjustment(s, pk, a, ctx).value;
           && s2.products[i].current == s.products[i].current
           && |s2.log| == |s.log| + 1
           && Last(s2.log).quantity == 0
           && !MovementBoundsHold(Last(s2.log))
  {
  }

  /** Adjusting twice to the same target is adjusting once, as far as the
      balance goes; the second adjustment logs a zero change. */
  lemma AdjustmentIdempotent(s: Store, pk: Key, a: AdjustmentForm, ctx1: Context, ctx2: Context)
    requires RecordAdjustment(s, pk, a, ctx1).Ok?
    ensures var s1 := RecordAdjustment(s, pk, a, ctx1).value;
      && RecordAdjustment(s1, pk, a, ctx2).Ok?
      && var s2 := RecordAdjustment(s1, pk, a, ctx2).value;
         var i := Find(s.products, pk).value;
         && s2.products[i].current == s1.products[i].current == a.target.value
         && Last(s2.log).quantity == 0
  {
    var s1 := RecordAdjustment(s, pk, a, ctx1).value;
    FindAfterRecorded(s, s1, Find(s.products, pk).value, Last(s1.log), pk);
  }

  /** A refused request leaves the store exactly as it was: an exit larger
      than the balance creates no movement and keeps the balance. */
  lemma RefusedExitChangesNothing(s: Store, pk: Key, f: MovementForm, ctx: Context)
    requires Available(s.products, pk)
    requires CleanMovementForm(f).Ok?
    requires CleanMovementForm(f).value.quantity > s.products[Find(s.products, pk).value].current
    ensures RecordExit(s, pk, f, ctx) == Err(InsufficientStock)
    ensures Step(s, pk, ExitRequest(f), ctx) == s
  {
  }

  /** An exit never takes a product out of low stock, and an entry never
      puts one into it. */
  lemma LowStockMonotone(s: Store, pk: Key, f: MovementForm, ctx: Context)
    requires Available(s.products, pk)
    ensures var i := Find(s.products, pk).value;
      && (RecordExit(s, pk, f, ctx).Ok? && LowStock(s.products[i]) ==>
            LowStock(RecordExit(s, pk, f, ctx).value.products[i]))
      && (RecordEntry(s, pk, f, ctx).Ok? && !LowStock(s.products[i]) ==>
            !LowStock(RecordEntry(s, pk, f, ctx).value.products[i]))
  {
  }

  /** The reason "Venda" is already stripped and holds no NUL. */
  lemma SaleReasonIsClean()
    ensures Text.Strip("Venda") == "Venda" && NulFree(Some("Venda"))
  {
    var reason := "Venda";
    assert Text.TrimLeft(reason) == reason && Text.TrimRight(reason) == reason by {
      assert !Text.IsSpace(reason[0]) && !Text.IsSpace(reason[|reason| - 1]);
    }
    assert '\0' !in reason by {
      assert reason == ['V', 'e', 'n', 'd', 'a'];
    }
  }

  /** A movement form with a positive quantity and the reason "Venda" is
      valid and carries both unchanged. */
  lemma SaleForm(q: Hundredths)
    requires q > 0
    ensures CleanMovementForm(MovementForm(Some(q), "Venda", None, None)) == Ok(MovementData(q, "Venda", None, None))
  {
    SaleReasonIsClean();
    var f := MovementForm(Some(q), "Venda", None, None);
    assert CleanOptionalText(f.note) == None && CleanOptionalText(f.document) == None;
    assert CleanMovementForm(f).Ok?;
  }

  /** A worked example: a product at 10.00 with a minimum of 5.00.
      Exits of 3.00 and 5.00 leave 7.00 (not low) and 2.00 (low); an exit of
      10.00 is then refused and the balance stays 2.00; adjusting to 0.00
      logs an adjustment of 2.00. */
  lemma {:induction false} ExitsThenAdjustScenario(p: Product, ctx: Context)
    requires p.active && p.current == 1000 && p.minimum == 500
    ensures var s0 := Store([p], []);
      var f3 := MovementForm(Some(300), "Venda", None, None);
      var f5 := MovementForm(Some(500), "Venda", None, None);
      var f10 := MovementForm(Some(1000), "Venda", None, None);
      && RecordExit(s0, p.key, f3, ctx).Ok?
      && var s1 := RecordExit(s0, p.key, f3, ctx).value;
         && s1.products[0].current == 700 && !LowStock(s1.products[0])
         && RecordExit(s1, p.key, f5, ctx).Ok?
         && var s2 := RecordExit(s1, p.key, f5, ctx).value;
            && s2.products[0].current == 200 && LowStock(s2.products[0])
            && RecordExit(s2, p.key, f10, ctx) == Err(InsufficientStock)
            && Step(s2, p.key, ExitRequest(f10), ctx) == s2
            && RecordAdjustment(s2, p.key, AdjustmentForm(Some(0), None), ctx).Ok?
            && var s3 := RecordAdjustment(s2, p.key, AdjustmentForm(Some(0), None), ctx).value;
               && s3.products[0].current == 0
               && Last(s3.log).kind == Adjustment && Last(s3.log).quantity == 200
               && Last(s3.log).reason == DefaultAdjustmentReason
  {
    var s0 := Store([p], []);
    var f3 := MovementForm(Some(300), "Venda", None, None);
    var f5 := MovementForm(Some(500), "Venda", None, None);
    var f10 := MovementForm(Some(1000), "Venda", None, None);
    SaleForm(300);
    SaleForm(500);
    SaleForm(1000);
    assert Find(s0.products, p.key) == Some(0);
    var s1 := RecordExit(s0, p.key, f3, ctx).value;
    FindAfterRecorded(s0, s1, 0, Last(s1.log), p.key);
    var s2 := RecordExit(s1, p.key, f5, ctx).value;
    FindAfterRecorded(s1, s2, 0, Last(s2.log), p.key);
  }

  /** The adjustment of the worked example, as the code is written: the
      request is answered 'Quantidade inválida!' and the balance stays 2.00. */
  lemma ScenarioAdjustmentAsWritten(p: Product, ctx: Context)
    requires p.active && p.current == 200
    ensures var s := Store([p], []);
      && AdjustmentAsWritten(s, p.key, AdjustmentForm(Some(0), None), ctx) == Err(InvalidNumber)
      && RecordAdjustment(s, p.key, AdjustmentForm(Some(0), None), ctx).Ok?
  {
    var s := Store([p], []);
    assert Find(s.products, p.key) == Some(0);
    AdjustmentAsWrittenNeverRecords(s, p.key, AdjustmentForm(Some(0), None), ctx);
  }
}

=== FILE: models.dfy ===
/** The stored records of the inventory application (estoque/models.py).

    Every `DecimalField(decimal_places=2)` is a whole number of hundredths, so
    `12.34` is `1234`. A product of two such values (a stock valuation) is a
    whole number of ten-thousandths, as Python's `Decimal` multiplication is
    exact. */
module Models {
  import opened Results
  import opened Text

  /** A database primary key. Django's automatic keys start at 1, so a
      present key is always truthy. */
  type Key = k: int | k >= 1 witness 1

  /** A two-decimal fixed-point amount, counted in hundredths. */
  type Hundredths = int

  /** A four-decimal fixed-point amount (hundredths times hundredths). */
  type TenThousandths = int

  /** `MinValueValidator(0.01)` on a movement quantity, in hundredths. */
  const MinMovementQuantity: Hundredths := 1

  /** `Categoria`: `nome` is unique. */
  datatype Category = Category(key: Key, name: string, description: Option<string>)

  /** `Fornecedor`: `cnpj` and `email` are optional. */
  datatype Supplier = Supplier(
    key: Key,
    name: string,
    cnpj: Option<string>,
    email: Option<string>,
    active: bool)

  /** `Produto`. A `qr_code` of `None` and one of `""` are both held as `""`:
      the source treats the two alike (both are falsy). */
  datatype Product = Product(
    key: Key,
    code: string,
    name: string,
    category: Key,
    supplier: Option<Key>,
    current: Hundredths,
    minimum: Hundredths,
    cost: Hundredths,
    sale: Hundredths,
    unit: string,
    qrCode: string,
    active: bool)

  /** `MovimentacaoEstoque.TIPO_CHOICES`. */
  datatype MovementKind = Entry | Exit | Adjustment

  /** `MovimentacaoEstoque`: one line of the stock ledger. `before` and `after`
      are `quantidade_anterior` and `quantidade_atual`; `at` is
      `data_movimentacao`, an abstract clock reading. */
  datatype Movement = Movement(
    product: Key,
    kind: MovementKind,
    quantity: Hundredths,
    before: Hundredths,
    after: Hundredths,
    reason: string,
    note: Option<string>,
    document: Option<string>,
    actor: Key,
    at: int)

  /** `ItemInventario`: one product line of a physical count. */
  datatype InventoryItem = InventoryItem(
    product: Key,
    system: Hundredths,
    counted: Option<Hundredths>,
    difference: Hundredths,
    countedAt: Option<int>)

  /** The stored value of `tipo` for each kind. */
  function KindCode(k: MovementKind): (r: string)
    ensures 0 < |r| <= 10
  {
    match k
    case Entry => "ENTRADA"
    case Exit => "SAIDA"
    case Adjustment => "AJUSTE"
  }

  function Abs(x: int): (r: nat)
    ensures r == x || r == -x
  {
    if x < 0 then -x else x
  }

  /** Distinct kinds are stored as distinct codes. */
  lemma KindCodeInjective(a: MovementKind, b: MovementKind)
    ensures KindCode(a) == KindCode(b) ==> a == b
  {
  }

  /** No two products share a primary key. */
  ghost predicate KeysUnique(ps: seq<Product>) {
    forall i, j :: 0 <= i < j < |ps| ==> ps[i].key != ps[j].key
  }

  /** `MinValueValidator(0)` on the four amounts of a product. */
  predicate ProductBoundsHold(p: Product) {
    p.current >= 0 && p.minimum >= 0 && p.cost >= 0 && p.sale >= 0
  }

  /** `MinValueValidator(0.01)` on a movement quantity. */
  predicate MovementBoundsHold(m: Movement) {
    m.quantity >= MinMovementQuantity
  }

  /** `Produto.estoque_baixo`: at or under the alert threshold. */
  predicate LowStock(p: Product) {
    p.current <= p.minimum
  }

  /** `Produto.valor_total_estoque`, in ten-thousandths. */
  function StockValue(p: Product): (r: TenThousandths)
    ensures p.current >= 0 && p.cost >= 0 ==> r >= 0
    ensures p.current == 0 || p.cost == 0 ==> r == 0
    ensures p.cost > 0 && p.current >= 0 ==> (r == 0 <==> p.current == 0)
  {
    p.current * p.cost
  }

  /** Valuation is additive in the balance: raising the balance by `q` raises
      the value by `q` units of cost. */
  lemma StockValueShift(p: Product, q: Hundredths)
    ensures StockValue(p.(current := p.current + q)) == StockValue(p) + q * p.cost
  {
    assert (p.current + q) * p.cost == p.current * p.cost + q * p.cost;
  }

  /** The QR prefix written by `Produto.save` for a product code. */
  function QrPrefix(code: string): (r: string)
    ensures |r| == |code| + 6
    ensures r[..5] == "PROD-" && r[|r| - 1] == '-'
    ensures r[5..|r| - 1] == code
  {
    "PROD-" + code + "-"
  }

  /** `Produto.save`: a product without a QR code gets
      "PROD-<code>-<suffix>"; one that has a code keeps it. `suffix` stands for
      the random eight hexadecimal digits the source draws. */
  function SaveProduct(p: Product, suffix: string): (r: Product)
    ensures p.qrCode != "" ==> r == p
    ensures p.qrCode == "" ==>
      IsPrefix(QrPrefix(p.code), r.qrCode) && r.qrCode[|QrPrefix(p.code)|..] == suffix
    ensures r.qrCode != ""
    ensures r == p.(qrCode := r.qrCode)
  {
    if p.qrCode != "" then p
    else
      var q := QrPrefix(p.code) + suffix;
      assert q[..|QrPrefix(p.code)|] == QrPrefix(p.code);
      p.(qrCode := q)
  }

  /** Saving twice is saving once: the second save finds a QR code and keeps
      it, whatever suffix it would have drawn. */
  lemma SaveProductIdempotent(p: Product, s1: string, s2: string)
    ensures SaveProduct(SaveProduct(p, s1), s2) == SaveProduct(p, s1)
  {
  }

  /** A freshly created count line: no count yet, `diferenca` defaults to 0. */
  function NewInventoryItem(product: Key, system: Hundredths): (r: InventoryItem)
    ensures r.counted.None? && r.countedAt.None? && r.difference == 0
    ensures r.product == product && r.system == system
  {
    InventoryItem(product, system, None, 0, None)
  }

  /** `ItemInventario.save`: with a counted quantity, the difference is
      counted minus system and the count time is stamped unless one is
      already there; without one, nothing changes. `now` is the clock. */
  function SaveInventoryItem(it: InventoryItem, now: int): (r: InventoryItem)
    ensures it.counted.Some? ==> r.system + r.difference == it.counted.value
    ensures it.counted.None? ==> r == it
    ensures it.countedAt.Some? ==> r.countedAt == it.countedAt
    ensures it.countedAt.None? && it.counted.Some? ==> r.countedAt == Some(now)
    ensures r.product == it.product && r.system == it.system && r.counted == it.counted
  {
    match it.counted
    case None => it
    case Some(c) =>
      it.(difference := c - it.system,
          countedAt := if it.countedAt.None? then Some(now) else it.countedAt)
  }

  /** Re-saving a count line changes nothing: the difference is recomputed
      to the same value and the first count time is kept. */
  lemma SaveInventoryItemIdempotent(it: InventoryItem, t1: int, t2: int)
    ensures SaveInventoryItem(SaveInventoryItem(it, t1), t2) == SaveInventoryItem(it, t1)
  {
  }

  /** A count equal to the system quantity records no difference; a count
      under it records a negative (missing stock) difference. */
  lemma CountDifferenceSign(it: InventoryItem, now: int)
    requires it.counted.Some?
    ensures var r := SaveInventoryItem(it, now);
      (r.difference == 0 <==> it.counted.value == it.system)
      && (r.difference < 0 <==> it.counted.value < it.system)
  {
  }
}

=== FILE: results.dfy ===
/** The two shapes of answer the model gives back.
    - Option<T>: a nullable column or an optional form field.
    - Result<T, E>: the new value, or the error the application reports. */
module Results {

  datatype Option<+T> = None | Some(value: T)

  datatype Result<+T, +E> = Ok(value: T) | Err(error: E)
}

=== FILE: text.dfy ===
/** Character-level helpers used by the form validators and the product search.
    Only ASCII is modelled: Python's `str.isdigit`, `str.strip` and the
    database's case-insensitive comparison also know other Unicode characters. */
module Text {

  predicate IsDigit(c: char) {
    '0' <= c <= '9'
  }

  /** Whitespace removed by Django's `CharField(strip=True)`, which calls
      Python's `str.strip()`: the ASCII part of it is space, tab, line feed,
      vertical tab, form feed, carriage return and the four separators
      U+001C to U+001F. */
  predicate IsSpace(c: char) {
    c == ' ' || c == '\t' || c == '\n' || c == '\r' || c as int == 11 || c as int == 12
    || 28 <= c as int <= 31
  }

  /** The digits of `s`, in order: `''.join(filter(str.isdigit, s))`. */
  function Digits(s: string): (r: string)
    ensures |r| <= |s|
    ensures forall k :: 0 <= k < |r| ==> IsDigit(r[k])
    ensures (forall k :: 0 <= k < |s| ==> IsDigit(s[k])) ==> r == s
    ensures (forall k :: 0 <= k < |s| ==> !IsDigit(s[k])) ==> r == ""
  {
    if |s| == 0 then ""
    else (if IsDigit(s[0]) then [s[0]] else "") + Digits(s[1..])
  }

  /** Digit extraction distributes over concatenation. */
  lemma {:induction false} DigitsAppend(a: string, b: string)
    ensures Digits(a + b) == Digits(a) + Digits(b)
  {
    if |a| == 0 {
      assert a + b == b;
    } else {
      assert (a + b)[1..] == a[1..] + b;
      DigitsAppend(a[1..], b);
    }
  }

  /** Extracting digits twice is the same as extracting them once. */
  lemma DigitsIdempotent(s: string)
    ensures Digits(Digits(s)) == Digits(s)
  {
  }

  function LowerChar(c: char): (r: char)
    ensures 'A' <= c <= 'Z' ==> r as int == c as int + 32
    ensures !('A' <= c <= 'Z') ==> r == c
  {
    if 'A' <= c <= 'Z' then (c as int + 32) as char else c
  }

  function Lower(s: string): (r: string)
    ensures |r| == |s|
    ensures forall k :: 0 <= k < |s| ==> r[k] == LowerChar(s[k])
  {
    if |s| == 0 then "" else [LowerChar(s[0])] + Lower(s[1..])
  }

  /** Case-insensitive equality, the `__iexact` lookup. */
  predicate EqualsIgnoreCase(a: string, b: string) {
    Lower(a) == Lower(b)
  }

  predicate IsPrefix(p: string, s: string) {
    |p| <= |s| && s[..|p|] == p
  }

  /** `needle` occurs as a contiguous piece of `hay`. */
  predicate IsSubstring(needle: string, hay: string)
    decreases |hay|
  {
    IsPrefix(needle, hay) || (|hay| > 0 && IsSubstring(needle, hay[1..]))
  }

  /** An occurrence of `needle` in `hay` at offset `k` is found by IsSubstring. */
  lemma {:induction false} SubstringAt(needle: string, hay: string, k: nat)
    requires k + |needle| <= |hay|
    requires hay[k..k + |needle|] == needle
    ensures IsSubstring(needle, hay)
    decreases k
  {
    if k > 0 {
      assert hay[1..][k - 1..k - 1 + |needle|] == hay[k..k + |needle|];
      SubstringAt(needle, hay[1..], k - 1);
    }
  }

  /** Case-insensitive containment, the `__icontains` lookup. */
  predicate ContainsIgnoreCase(hay: string, needle: string) {
    IsSubstring(Lower(needle), Lower(hay))
  }

  function TrimLeft(s: string): (r: string)
    ensures |r| <= |s| && r == s[|s| - |r|..]
    ensures |r| > 0 ==> !IsSpace(r[0])
    ensures forall k :: 0 <= k < |s| - |r| ==> IsSpace(s[k])
  {
    if |s| > 0 && IsSpace(s[0]) then TrimLeft(s[1..]) else s
  }

  function TrimRight(s: string): (r: string)
    ensures |r| <= |s| && r == s[..|r|]
    ensures |r| > 0 ==> !IsSpace(r[|r| - 1])
    ensures forall k :: |r| <= k < |s| ==> IsSpace(s[k])
  {
    if |s| > 0 && IsSpace(s[|s| - 1]) then TrimRight(s[..|s| - 1]) else s
  }

  /** Trimming the left end and then the right end of `s` leaves the piece
      of `s` that starts after the leading whitespace. */
  lemma StripPieces(s: string, t: string, r: string)
    requires |t| <= |s| && t == s[|s| - |t|..]
    requires |r| <= |t| && r == t[..|r|]
    requires forall k :: |r| <= k < |t| ==> IsSpace(t[k])
    ensures r == s[|s| - |t|..][..|r|]
    ensures forall k :: |s| - |t| + |r| <= k < |s| ==> IsSpace(s[k])
    ensures IsSubstring(r, s)
  {
    var a := |s| - |t|;
    assert r == s[a..a + |r|];
    SubstringAt(r, s, a);
    forall k | a + |r| <= k < |s|
      ensures IsSpace(s[k])
    {
      assert s[k] == t[k - a];
    }
  }

  /** Python's `str.strip()`: drop leading and trailing whitespace, and
      nothing else. */
  function Strip(s: string): (r: string)
    ensures |r| <= |s|
    ensures IsSubstring(r, s)
    ensures |r| > 0 ==> !IsSpace(r[0]) && !IsSpace(r[|r| - 1])
    ensures r == "" <==> forall k :: 0 <= k < |s| ==> IsSpace(s[k])
    ensures exists a {:trigger s[a..]} ::
      && 0 <= a <= |s| - |r|
      && r == s[a..][..|r|]
      && (forall k :: 0 <= k < a ==> IsSpace(s[k]))
      && (forall k :: a + |r| <= k < |s| ==> IsSpace(s[k]))
  {
    var t := TrimLeft(s);
    var r := TrimRight(t);
    StripPieces(s, t, r);
    r
  }

  /** Stripping removes whitespace only: any other character of `s` is still
      in the result. */
  lemma StripKeepsInner(s: string, k: nat)
    requires k < |s| && !IsSpace(s[k])
    ensures s[k] in Strip(s)
  {
    var t := TrimLeft(s);
    var r := TrimRight(t);
    assert Strip(s) == r;
    var a := |s| - |t|;
    assert a <= k;
    assert t[k - a] == s[k];
    assert k - a < |r|;
    assert r[k - a] == s[k];
  }
}
